=== FILE: README.md ===
# BytecodeVM-Simple interpreter, modelled in Dafny

This project models the `VM` class of BytecodeVM-Simple, a small stack-based bytecode
interpreter. A program is a flat byte array of opcodes and inline operands. The VM
executes it against a 128-slot byte stack. `Process(time)` is called once per frame: it
runs instructions until one suspends (WAIT, REPEAT) or the end of the program is
reached. A pending wait time makes later calls return without running anything.

The model is functional: `Machine.Vm` is an immutable record (program, stack, `ip`,
`wait`), every instruction is a pure function returning a `Result`, and `Process` is
defined over `Step` and the loop `Run`. `Run` terminates because every step that does
not suspend strictly increases `ip`.

Modules:

- `Bytes`: the byte type. `Wrappers`: `Option`/`Result`. `Faults`: the three run-time faults.
- `Opcodes`: the instruction enumeration and its byte encoding.
- `ByteStack`: the 128-slot array plus count, with `Push`, `Pop` and `Clear`. `Contents` is its list view.
- `Words`: the word `BitConverter.ToSingle` reads from its four bytes, taken on a little-endian host.
- `Machine`: the state, `Load`, one `Exec` function per instruction, `Step`, `Run` and `Process`.
- `Traces`: where a concrete run stands (`At`) and how a run from there ends (`RunsTo`).
- `Properties`, `SampleProgram`, `NoStackSlip`: lemmas relating several operations or calls.

Modelling decisions:

- Time is an `int`. A float is represented by the 32-bit word handed to `BitConverter.ToSingle`, read in little-endian byte order (element 0 least significant).
- The log is a sequence of `Event` values without text.
- A fault ends the call with `Err`: stack overflow, stack underflow, or an operand read past the end of the program.
- `Dialect` selects how far PRINT_FLOAT_NO_STACK moves `ip`. `AsWritten` is the code's move of 3; `Intended` is 4 (see Findings).
- The general lemmas hold for both dialects.

Points where the code's behaviour is easy to misread; the model follows the code in each:

- `Load` rewinds `ip` and zeroes the slot array, but keeps the stack count and the pending wait.
- The guard is `wait >= time`, so a wait of `w` lets execution resume only at a time strictly greater than `w`. The wait is never cleared.
- REPEAT zeroes all 128 slots but keeps the stack count. If bytes were on the stack, they become zeros rather than disappearing.
- PRINT_FLOAT_NO_STACK moves `ip` by three after the opcode. Its fourth operand byte is therefore fetched as an opcode next.
- A byte above 6 is a no-op that only advances `ip`.
- "Finished" is logged whenever `ip` ends at the program's end. That includes a WAIT that is the last byte.

## Model

| member | source | states |
|---|---|---|
| `Opcodes.Encode` | ByteCodeVM_Test.cs:55-66 | every instruction's wire value is one of 0..6, its position in the enumeration |
| `Opcodes.Decode` | ByteCodeVM_Test.cs:55-66 | a byte names an instruction exactly when it is at most 6; other bytes name none |
| `Opcodes.DecodeEncode` | ByteCodeVM_Test.cs:55-66 | every instruction's wire value decodes back to that instruction |
| `Opcodes.EncodeDecode` | ByteCodeVM_Test.cs:55-66 | every byte that decodes to an instruction is that instruction's wire value |
| `Bytes.Truncate` | ByteCodeVM_Test.cs:125 | the `(byte)` cast of a sum: a byte congruent to it mod 256, and the sum itself when it is below 256 |
| `ByteStack.Push` | ByteCodeVM_Test.cs:204-208 | succeeds exactly when fewer than 128 slots are taken, else StackOverflow; on success the list view gains the byte on top and only the slot at the old count changes |
| `ByteStack.Pop` | ByteCodeVM_Test.cs:214-218 | succeeds exactly when the count is positive, else StackUnderflow; returns the top of the list view and the list without it; the slots themselves are untouched |
| `ByteStack.Clear` | ByteCodeVM_Test.cs:186 | every one of the 128 slots becomes 0 and the count is unchanged |
| `ByteStack.Cleared` | ByteCodeVM_Test.cs:87 | a new slot array with a given count: that many zero bytes on the stack |
| `ByteStack.PushThenPop` | ByteCodeVM_Test.cs:204-218 | a pop right after a push returns the pushed byte and restores the count and the contents |
| `ByteStack.PopThenPush` | ByteCodeVM_Test.cs:204-218 | pushing the byte just popped restores the stack exactly |
| `Words.FromLE` | ByteCodeVM_Test.cs:147 | the little-endian value of n bytes is below 256^n |
| `Words.FromToLE` | ByteCodeVM_Test.cs:147 | encoding any value below 256^n into n little-endian bytes and decoding gives the value back |
| `Words.ToFromLE` | ByteCodeVM_Test.cs:147 | decoding bytes and re-encoding at the same width gives the bytes back |
| `Words.WordOf` | ByteCodeVM_Test.cs:147 | the word read from a 4-byte array is element 0 + 2^8 * element 1 + 2^16 * element 2 + 2^24 * element 3 |
| `Machine.Fresh` | ByteCodeVM_Test.cs:69-90 | a new VM after its first `Load`: ip 0, empty stack, wait -1 |
| `Machine.Load` | ByteCodeVM_Test.cs:85-90 | installs the program and rewinds ip to 0; keeps the count and the wait, so the stack holds that many zeros |
| `Machine.ExecSet` | ByteCodeVM_Test.cs:134-141 | fails with OperandOutOfRange when no operand byte is left, else with StackOverflow on a full stack; otherwise pushes the operand, leaves ip past it (opcode position + 2) and logs it |
| `Machine.ExecAdd` | ByteCodeVM_Test.cs:119-131 | needs two bytes (else StackUnderflow); replaces the top two a, b (b on top) by (a + b) mod 256, so the count drops by one; logs a, b and the sum |
| `Machine.ExecPrintFloat` | ByteCodeVM_Test.cs:144-151 | needs four bytes (else StackUnderflow); removes them and logs the word in which the deepest of the four is the most significant byte and the top the least |
| `Machine.ExecPrintFloatNoStack` | ByteCodeVM_Test.cs:154-168 | needs four operand bytes (else OperandOutOfRange); logs the word with the first operand most significant; stack untouched; ip ends on the fourth operand (as written) or past it (intended) |
| `Machine.ExecWait` | ByteCodeVM_Test.cs:171-179 | needs one byte (else StackUnderflow); pops the amount, sets wait to time + amount, suspends and leaves ip just past the WAIT opcode |
| `Machine.ExecRepeat` | ByteCodeVM_Test.cs:182-190 | sets ip to 0, zeroes all 128 slots, keeps the count and the wait, suspends; the resulting state is the one `Load` of the same program gives |
| `Machine.Step` | ByteCodeVM_Test.cs:107-191 | an unknown byte only advances ip; a step logs one event exactly when its byte names an instruction; a non-suspending step strictly increases ip and keeps the wait; a suspending one is a WAIT or a REPEAT; the program never changes; `Machine.StepRunsDecoded` adds which line, with which values, the decoded instruction logs and when it suspends |
| `Machine.StepLogsDecoded` | ByteCodeVM_Test.cs:108-191 | a successful step on a byte naming instruction i logs exactly one line, the one i writes with the values it reads: SET the operand byte after the opcode, ADD the top two bytes and their sum mod 256, PRINT_FLOAT the word of the top four bytes (deepest most significant), PRINT_FLOAT_NO_STACK the word of the four bytes after the opcode (first most significant), WAIT the top byte |
| `Machine.StepSuspendsDecoded` | ByteCodeVM_Test.cs:108-191 | a successful step on a byte naming instruction i suspends exactly when i is WAIT or REPEAT |
| `Machine.StepRunsDecoded` | ByteCodeVM_Test.cs:108-191 | the two facts together: the step's single log line is the one the decoded instruction writes, with its values, and it suspends exactly on WAIT or REPEAT |
| `Machine.Run` | ByteCodeVM_Test.cs:104-192 | the loop keeps ip within the program; it stops either at the end of the program (wait unchanged) or on a WAIT or REPEAT, whose effects it reports (a WAIT leaves ip just past its opcode, a REPEAT leaves it at 0); it never logs Finished or Waiting |
| `Machine.Process` | ByteCodeVM_Test.cs:96-198 | while wait >= time nothing changes and only the remaining wait is logged; otherwise Finished is logged exactly when ip ends at the program's end, and a call that stops earlier ends on WAIT or REPEAT |
| `Properties.FloatPathsAgree` | ByteCodeVM_Test.cs:144-168 | PRINT_FLOAT on pushed bytes B0..B3 and PRINT_FLOAT_NO_STACK on inline B0..B3 log the same word B0*2^24 + B1*2^16 + B2*2^8 + B3, whose little-endian bytes are B3..B0; only the first uses the stack |
| `Properties.WaitHoldsUntilStrictlyLater` | ByteCodeVM_Test.cs:99-179 | after a run suspended by WAIT with amount a at time t, a later call is refused exactly when its time is at most t + a; the run resumes just past the WAIT opcode |
| `Properties.ReloadKeepsWait` | ByteCodeVM_Test.cs:79-102 | after `Load` the stack holds the old count of zeros, and a call is refused exactly when it would have been before |
| `Properties.SentinelBlocksOnlyNegativeTimes` | ByteCodeVM_Test.cs:79-102 | on a freshly loaded VM the wait value -1 refuses a call exactly when the time is negative |
| `Properties.SetsFillStack` | ByteCodeVM_Test.cs:204-207 | a program of n SETs runs to completion exactly when n <= 128, leaving the n bytes on the stack in order; a 129th overflows |
| `Properties.RunSets` | ByteCodeVM_Test.cs:134-141 | SETs from the k-th onward fill the stack with the operand bytes when they fit, and fail with StackOverflow otherwise |
| `Properties.AddWrapsAround` | ByteCodeVM_Test.cs:119-131 | SET 255, SET 1, ADD leaves [0] on the stack and logs the pushes, the sum 255 + 1 = 0 and Finished |
| `Properties.WaitAtEndAlsoFinishes` | ByteCodeVM_Test.cs:194-197 | SET 2, WAIT logs the push, the wait and also Finished, because ip ends at the program's end |
| `SampleProgram.SampleWireBytes` | ByteCodeVM_Test.cs:15-39 | the host's program, written with the enumeration names, is the byte sequence 0, 1, 2, 1, 1, 2, 1, 0x49, 1, 0x96, 1, 0xb4, 1, 0x38, 3, 4, 0x49, 0x96, 0xb4, 0x38, 5, 6: the enumeration is numbered from 0 in declaration order |
| `SampleProgram.FirstTick` | ByteCodeVM_Test.cs:15-39 | the host's 22-byte program at time 0 logs hello, 2 + 1 = 3, the word 0x4996b438 twice and a wait of 3; it ends with ip 21, an empty stack and wait 3 |
| `SampleProgram.WaitingTick` | ByteCodeVM_Test.cs:99-102 | after the first call, any call at time <= 3 changes nothing and logs the remaining wait 3 - time |
| `SampleProgram.RepeatTick` | ByteCodeVM_Test.cs:182-190 | after the first call, a call at time > 3 runs REPEAT: ip 0, empty stack, wait still 3, and Repeat is the only log entry |
| `NoStackSlip.SlipRunsLastOperand` | ByteCodeVM_Test.cs:157-164 | as written, PRINT_FLOAT_NO_STACK 0 0 0 0 logs the word 0, then "Hello World" from its last operand byte, then Finished |
| `NoStackSlip.IntendedSkipsOperands` | ByteCodeVM_Test.cs:157-164 | with the move of four, the same program logs only the word 0 and Finished |
| `NoStackSlip.SlipHarmlessIff` | ByteCodeVM_Test.cs:157-164 | both moves log the same word; the source's state catches up with the intended one after one more silent step exactly when the fourth operand byte names no instruction |

## Left out

- The host `ByteCodeVM_Test` MonoBehaviour (`Start`, `Update`, `Time.time`) and its duplicate in `Assets/ByteCodeVM_Test.cs`: host plumbing that only drives the VM. Its program bytes are modelled in `SampleProgram.Sample`.
- `Words.WordOf`: assumes a little-endian host. `BitConverter.ToSingle` reads its array in the host's byte order (`BitConverter.IsLittleEndian`); on a big-endian host element 0 would be the most significant byte, and the words in `Machine.ExecPrintFloat`, `Machine.ExecPrintFloatNoStack` and `Properties.FloatPathsAgree` would be byte-reversed.
- `System.BitConverter.ToSingle`: IEEE-754 decoding is a floating-point library call. The model stops at the 32-bit word.
- `Mathf.Ceil` in the waiting message: time is an integer here, so the remaining wait `wait - time` needs no rounding.
- Float arithmetic on `time` and `wait`: the parameter `time` and the field `wait` are `float` (ByteCodeVM_Test.cs:79, :96), so very large times lose precision in `time + amount` and in the guard. The model uses exact integers.
- `Debug.Log` text: each line is an `Event` value.
- The state after a fault: `Debug.Assert` does not stop execution, and the array access that follows throws part-way through an instruction. The model returns `Err(fault)` and drops the partial state and any log lines of that call.
- Aliasing of the loaded program: `Load` keeps a reference to the caller's byte array (ByteCodeVM_Test.cs:89), and `Process` re-reads it on every fetch, so a caller that writes into the array after `Load` changes the program being run. `Machine.Vm` holds an immutable copy taken at `Load`. The host never writes to the array after loading it.
- `Process` before the first `Load`: `wait` already starts at -1 (ByteCodeVM_Test.cs:79), so a call at a time of -1 or less is refused by the guard and only logs the remaining wait, as after `Load`; a call at a later time reaches `bytecode.Length` (:107) while `bytecode` is still null and throws. `Machine.Fresh` starts from the first `Load`.

## Findings

| source | as written | input that shows it | evidently intended | confidence | as-written member | corrected member |
|---|---|---|---|---|---|---|
| ByteCodeVM_Test.cs:164 | `_curInstr += 3` after reading four operand bytes leaves `ip` on the fourth operand, which the loop then dispatches as an opcode | program `[4, 0, 0, 0, 0]` at time 0 logs the word 0, then "Hello World" (from operand byte 0), then Finished | `_curInstr += 4`, so the next opcode is the byte after all four operands | high; not executed | `NoStackSlip.SlipRunsLastOperand` (on `Machine.ExecPrintFloatNoStack` with `AsWritten`) | `NoStackSlip.IntendedSkipsOperands` (on `Machine.ExecPrintFloatNoStack` with `Intended`) |

The host's sample program hides this slip because its fourth operand, 0x38, names no
instruction. `SampleProgram.FirstTick` holds under both dialects, and
`NoStackSlip.SlipHarmlessIff` shows that this is the only way the slip stays harmless.

=== FILE: bytes.dfy ===
/** Unsigned 8-bit values, the element type of the program and of the stack. */
module Bytes {

  type Byte = b: nat | b < 256

  /** The C# `(byte)` cast of a non-negative sum: keeps the low eight bits. */
  function Truncate(x: nat): (b: Byte)
    ensures (x - b) % 256 == 0
    ensures x < 256 ==> b == x
  {
    x % 256
  }
}

=== FILE: faults.dfy ===
/** The run-time faults of the interpreter. In the C# original each one is a failed
    `Debug.Assert` followed by an out-of-range array access; here each one ends the
    current call with an error instead of leaving a half-updated machine behind. */
module Faults {

  datatype Fault =
    | StackOverflow       // push onto a stack that already holds 128 bytes
    | StackUnderflow      // pop from an empty stack
    | OperandOutOfRange   // an operand read past the end of the program
}

=== FILE: machine.dfy ===
/** The interpreter: its state, program loading, the seven instructions, one fetch and
    dispatch step, the run loop and the per-call entry point `Process`. */
module Machine {
  import opened Wrappers
  import opened Bytes
  import opened Faults
  import opened Opcodes
  import opened ByteStack
  import opened Words

  /** The value of `wait` meaning "no pending wait". */
  const NoWait: int := -1

  /** Interpreter state: the loaded program, the stack, the index of the next byte to
      fetch, and the time up to which `Process` refuses to run. */
  datatype Vm = Vm(program: seq<Byte>, stack: Stack, ip: nat, wait: int)

  /** The interpreter's log lines, without their text. */
  datatype Event =
    | Greeted                                  // "Hello World"
    | Pushed(value: Byte)                      // SET
    | Summed(a: Byte, b: Byte, sum: Byte)      // ADD
    | PrintedFloat(word: Word)                 // PRINT_FLOAT and PRINT_FLOAT_NO_STACK
    | Waited(amount: Byte)                     // WAIT
    | Repeated                                 // REPEAT
    | Finished                                 // end of program reached
    | Waiting(remaining: int)                  // call refused by the wait guard

  /** How far PRINT_FLOAT_NO_STACK moves `ip` past its first operand byte: three
      bytes in the source, four as evidently intended (see `ExecPrintFloatNoStack`). */
  datatype Dialect = AsWritten | Intended

  /** The outcome of executing instructions: the new state, whether an instruction
      asked the loop to stop, and the log lines in order. */
  datatype Effect = Effect(vm: Vm, suspend: bool, events: seq<Event>)

  /** The outcome of one call of `Process`. */
  datatype Tick = Tick(vm: Vm, events: seq<Event>)

  predicate WellFormed(vm: Vm) {
    ByteStack.Valid(vm.stack) && vm.ip <= |vm.program|
  }

  /** `a` and `b` agree on everything but the stack and the instruction pointer. */
  predicate SameFrame(a: Vm, b: Vm) {
    a.program == b.program && a.wait == b.wait
  }

  function Last<T>(s: seq<T>): T
    requires |s| > 0
  {
    s[|s| - 1]
  }

  /** No log line that only `Process` itself writes. */
  predicate StepEvents(events: seq<Event>) {
    forall i :: 0 <= i < |events| ==> events[i] != Finished && !events[i].Waiting?
  }

  /** The state of a new VM once `Load` has run: empty stack, no pending wait. */
  function Fresh(program: seq<Byte>): (vm: Vm)
    ensures WellFormed(vm) && vm.program == program && vm.ip == 0
    ensures Contents(vm.stack) == [] && vm.wait == NoWait
  {
    Vm(program, Cleared(0), 0, NoWait)
  }

  /** Installs a program and a zeroed slot array and rewinds to byte 0. The stack
      count and the pending wait are kept from before. */
  function Load(vm: Vm, program: seq<Byte>): (r: Vm)
    requires WellFormed(vm)
    ensures WellFormed(r) && r.program == program && r.ip == 0
    ensures r.wait == vm.wait && r.stack.size == vm.stack.size
    ensures Contents(r.stack) == Zeros(vm.stack.size)
  {
    Vm(program, Cleared(vm.stack.size), 0, vm.wait)
  }

  // Each Exec function runs one instruction on a state whose `ip` already points
  // past the opcode byte.

  /** SET: pushes the program byte at `ip` and steps over it. */
  function ExecSet(vm: Vm): (r: Result<Effect, Fault>)
    requires WellFormed(vm)
    ensures vm.ip == |vm.program| ==> r == Err(OperandOutOfRange)
    ensures vm.ip < |vm.program| && vm.stack.size == Capacity ==> r == Err(StackOverflow)
    ensures r.Ok? <==> vm.ip < |vm.program| && vm.stack.size < Capacity
    ensures r.Ok? ==>
      var e := r.value;
      && WellFormed(e.vm) && SameFrame(vm, e.vm) && !e.suspend
      && e.vm.ip == vm.ip + 1
      && Contents(e.vm.stack) == Contents(vm.stack) + [vm.program[vm.ip]]
      && e.events == [Pushed(vm.program[vm.ip])]
  {
    if vm.ip >= |vm.program| then Err(OperandOutOfRange)
    else
      var value := vm.program[vm.ip];
      var stack :- Push(vm.stack, value);
      Ok(Effect(vm.(ip := vm.ip + 1, stack := stack), false, [Pushed(value)]))
  }

  /** ADD: pops `b`, then `a`, and pushes their sum truncated to a byte. */
  function ExecAdd(vm: Vm): (r: Result<Effect, Fault>)
    requires WellFormed(vm)
    ensures r.Ok? <==> vm.stack.size >= 2
    ensures r.Err? ==> r.error == StackUnderflow
    ensures r.Ok? ==>
      var e := r.value;
      var c := Contents(vm.stack);
      var n := |c|;
      && WellFormed(e.vm) && SameFrame(vm, e.vm) && !e.suspend
      && e.vm.ip == vm.ip
      && e.vm.stack.size == vm.stack.size - 1
      && Contents(e.vm.stack) == c[..n - 2] + [(c[n - 2] as nat + c[n - 1]) % 256]
      && e.events == [Summed(c[n - 2], c[n - 1], (c[n - 2] as nat + c[n - 1]) % 256)]
  {
    var b :- Pop(vm.stack);
    var a :- Pop(b.rest);
    var sum := Truncate(a.value + b.value);
    // two slots were just freed, so this push cannot overflow
    var stack := Push(a.rest, sum).value;
    assert Contents(vm.stack) == Contents(a.rest) + [a.value] + [b.value];
    Ok(Effect(vm.(stack := stack), false, [Summed(a.value, b.value, sum)]))
  }

  /** PRINT_FLOAT: pops four bytes into an array in pop order, so the first byte
      popped is the least significant byte of the word. */
  function ExecPrintFloat(vm: Vm): (r: Result<Effect, Fault>)
    requires WellFormed(vm)
    ensures r.Ok? <==> vm.stack.size >= 4
    ensures r.Err? ==> r.error == StackUnderflow
    ensures r.Ok? ==>
      var e := r.value;
      var c := Contents(vm.stack);
      var n := |c|;
      && WellFormed(e.vm) && SameFrame(vm, e.vm) && !e.suspend
      && e.vm.ip == vm.ip
      && Contents(e.vm.stack) == c[..n - 4]
      && e.events == [PrintedFloat(BigEndian(c[n - 4..]))]
  {
    var p0 :- Pop(vm.stack);
    var p1 :- Pop(p0.rest);
    var p2 :- Pop(p1.rest);
    var p3 :- Pop(p2.rest);
    assert Contents(vm.stack) == Contents(p3.rest) + [p3.value] + [p2.value] + [p1.value] + [p0.value];
    var word := WordOf(p0.value, p1.value, p2.value, p3.value);
    ReversedIsBigEndian(p3.value, p2.value, p1.value, p0.value);
    assert Contents(vm.stack)[|Contents(vm.stack)| - 4..] == [p3.value, p2.value, p1.value, p0.value];
    Ok(Effect(vm.(stack := p3.rest), false, [PrintedFloat(word)]))
  }

  /** PRINT_FLOAT_NO_STACK: reads the four program bytes at `ip` in reverse order, so
      the byte at `ip + 3` is the least significant byte of the word. The source then
      moves `ip` on by three, onto the last operand byte, which the next step fetches
      as an opcode; the `Intended` dialect moves it on by four, past all operands. */
  function ExecPrintFloatNoStack(vm: Vm, d: Dialect): (r: Result<Effect, Fault>)
    requires WellFormed(vm)
    ensures r.Ok? <==> vm.ip + 3 < |vm.program|
    ensures r.Err? ==> r.error == OperandOutOfRange
    ensures r.Ok? ==>
      var e := r.value;
      var p := vm.program;
      && WellFormed(e.vm) && SameFrame(vm, e.vm) && !e.suspend
      && e.vm.stack == vm.stack
      && e.vm.ip == (if d == AsWritten then vm.ip + 3 else vm.ip + 4)
      && e.events == [PrintedFloat(BigEndian(p[vm.ip..vm.ip + 4]))]
  {
    if vm.ip + 3 >= |vm.program| then Err(OperandOutOfRange)
    else
      var p := vm.program;
      var word := WordOf(p[vm.ip + 3], p[vm.ip + 2], p[vm.ip + 1], p[vm.ip]);
      ReversedIsBigEndian(p[vm.ip], p[vm.ip + 1], p[vm.ip + 2], p[vm.ip + 3]);
      assert p[vm.ip..vm.ip + 4] == [p[vm.ip], p[vm.ip + 1], p[vm.ip + 2], p[vm.ip + 3]];
      var skip := if d == AsWritten then 3 else 4;
      Ok(Effect(vm.(ip := vm.ip + skip), false, [PrintedFloat(word)]))
  }

  /** WAIT: pops an amount, sets the wait time to `time` plus that amount and
      suspends, leaving `ip` just past the WAIT opcode. */
  function ExecWait(vm: Vm, time: int): (r: Result<Effect, Fault>)
    requires WellFormed(vm)
    ensures r.Ok? <==> vm.stack.size > 0
    ensures r.Err? ==> r.error == StackUnderflow
    ensures r.Ok? ==>
      var e := r.value;
      var c := Contents(vm.stack);
      && WellFormed(e.vm) && e.suspend
      && e.vm.program == vm.program && e.vm.ip == vm.ip
      && Contents(e.vm.stack) == c[..|c| - 1]
      && e.vm.wait == time + c[|c| - 1]
      && e.events == [Waited(c[|c| - 1])]
  {
    var amount :- Pop(vm.stack);
    Ok(Effect(vm.(stack := amount.rest, wait := time + amount.value), true, [Waited(amount.value)]))
  }

  /** REPEAT: rewinds to byte 0, zeroes all 128 slots and suspends. The stack count
      is left as it was. */
  function ExecRepeat(vm: Vm): (r: Effect)
    requires WellFormed(vm)
    ensures WellFormed(r.vm) && SameFrame(vm, r.vm) && r.suspend
    ensures r.vm.ip == 0
    ensures r.vm.stack.size == vm.stack.size
    ensures Contents(r.vm.stack) == Zeros(vm.stack.size)
    ensures forall i :: 0 <= i < Capacity ==> r.vm.stack.slots[i] == 0
    ensures r.events == [Repeated]
    ensures r.vm == Load(vm, vm.program)
  {
    Effect(vm.(ip := 0, stack := Clear(vm.stack)), true, [Repeated])
  }

  /** How an instruction that suspended the loop left the state: WAIT set the wait
      time and left `ip` just past its opcode, where the next call resumes; REPEAT
      rewound to 0 with zeroed slots and kept the wait time. */
  predicate SuspendedBy(e: Effect, before: Vm, time: int)
    requires ByteStack.Valid(e.vm.stack)
  {
    && |e.events| > 0
    && match Last(e.events)
       case Waited(a) =>
         && e.vm.wait == time + a
         && 0 < e.vm.ip <= |e.vm.program| && e.vm.program[e.vm.ip - 1] == Encode(Wait)
       case Repeated =>
         && e.vm.ip == 0 && e.vm.wait == before.wait
         && forall i :: 0 <= i < Capacity ==> e.vm.stack.slots[i] == 0
       case _ => false
  }

  /** One turn of the loop: fetch the byte at `ip`, advance `ip`, dispatch. A byte
      that names no instruction does nothing more. */
  function Step(vm: Vm, time: int, d: Dialect): (r: Result<Effect, Fault>)
    requires WellFormed(vm) && vm.ip < |vm.program|
    ensures Decode(vm.program[vm.ip]).None? ==> r == Ok(Effect(vm.(ip := vm.ip + 1), false, []))
    ensures r.Ok? ==> WellFormed(r.value.vm) && r.value.vm.program == vm.program
    ensures r.Ok? ==> StepEvents(r.value.events)
    ensures r.Ok? ==> (|r.value.events| == 1 <==> Decode(vm.program[vm.ip]).Some?)
    ensures r.Ok? ==> |r.value.events| <= 1
    ensures r.Ok? && !r.value.suspend ==> r.value.vm.ip > vm.ip && r.value.vm.wait == vm.wait
    ensures r.Ok? && r.value.suspend ==> SuspendedBy(r.value, vm, time)
  {
    var next := vm.(ip := vm.ip + 1);
    match Decode(vm.program[vm.ip])
    case None => Ok(Effect(next, false, []))
    case Some(PrintHelloWorld) => Ok(Effect(next, false, [Greeted]))
    case Some(Set) => ExecSet(next)
    case Some(Add) => ExecAdd(next)
    case Some(PrintFloat) => ExecPrintFloat(next)
    case Some(PrintFloatNoStack) => ExecPrintFloatNoStack(next, d)
    case Some(Wait) => ExecWait(next, time)
    case Some(Repeat) => Ok(ExecRepeat(next))
  }

  /** The log line instruction `i` writes when it runs with its opcode at `vm.ip`,
      with the values it reads from the program and the stack. */
  predicate LogsAs(i: Inst, vm: Vm, e: Event)
    requires WellFormed(vm)
  {
    var p := vm.program;
    var c := Contents(vm.stack);
    var n := |c|;
    match i
    case PrintHelloWorld => e == Greeted
    case Set => vm.ip + 1 < |p| && e == Pushed(p[vm.ip + 1])
    case Add => n >= 2 && e == Summed(c[n - 2], c[n - 1], (c[n - 2] as nat + c[n - 1]) % 256)
    case PrintFloat => n >= 4 && e == PrintedFloat(BigEndian(c[n - 4..]))
    case PrintFloatNoStack => vm.ip + 5 <= |p| && e == PrintedFloat(BigEndian(p[vm.ip + 1..vm.ip + 5]))
    case Wait => n >= 1 && e == Waited(c[n - 1])
    case Repeat => e == Repeated
  }

  /** A successful step on a byte naming instruction `i` logs the one line `i` writes,
      with the operand, stack bytes or word it reads. */
  lemma StepLogsDecoded(vm: Vm, time: int, d: Dialect)
    requires WellFormed(vm) && vm.ip < |vm.program|
    requires Decode(vm.program[vm.ip]).Some? && Step(vm, time, d).Ok?
    ensures |Step(vm, time, d).value.events| == 1
    ensures LogsAs(Decode(vm.program[vm.ip]).value, vm, Step(vm, time, d).value.events[0])
  {
  }

  /** A successful step on a byte naming instruction `i` suspends exactly when `i` is
      WAIT or REPEAT. */
  lemma StepSuspendsDecoded(vm: Vm, time: int, d: Dialect)
    requires WellFormed(vm) && vm.ip < |vm.program|
    requires Decode(vm.program[vm.ip]).Some? && Step(vm, time, d).Ok?
    ensures Step(vm, time, d).value.suspend <==> Decode(vm.program[vm.ip]).value in {Wait, Repeat}
  {
  }

  /** A step dispatches on the decoded byte: a successful step on a byte naming
      instruction `i` logs the one line `i` writes, with the operand, stack bytes or
      word it reads, and it suspends exactly when `i` is WAIT or REPEAT. */
  lemma StepRunsDecoded(vm: Vm, time: int, d: Dialect)
    requires WellFormed(vm) && vm.ip < |vm.program|
    requires Decode(vm.program[vm.ip]).Some? && Step(vm, time, d).Ok?
    ensures var i := Decode(vm.program[vm.ip]).value;
      var e := Step(vm, time, d).value;
      && |e.events| == 1 && LogsAs(i, vm, e.events[0])
      && (e.suspend <==> i == Wait || i == Repeat)
  {
    StepLogsDecoded(vm, time, d);
    StepSuspendsDecoded(vm, time, d);
  }

  /** Prepending the log of earlier steps keeps the log free of `Process`'s own
      lines and keeps a suspension described relative to any earlier state with the
      same wait time. */
  lemma PrefixKeepsRun(prefix: seq<Event>, rest: Effect, before: Vm, later: Vm, time: int)
    requires ByteStack.Valid(rest.vm.stack)
    requires StepEvents(prefix) && StepEvents(rest.events) && later.wait == before.wait
    requires rest.suspend ==> SuspendedBy(rest, later, time)
    ensures StepEvents(prefix + rest.events)
    ensures rest.suspend ==> SuspendedBy(rest.(events := prefix + rest.events), before, time)
  {
    var all := prefix + rest.events;
    assert forall i :: 0 <= i < |all| ==> all[i] == if i < |prefix| then prefix[i] else rest.events[i - |prefix|];
    if rest.suspend {
      assert Last(all) == Last(rest.events);
    }
  }

  /** The loop of `Process`: steps until an instruction suspends or `ip` reaches the
      end of the program. Every step that does not suspend moves `ip` forward, so the
      distance to the end of the program bounds the number of steps. */
  function Run(vm: Vm, time: int, d: Dialect): (r: Result<Effect, Fault>)
    requires WellFormed(vm)
    ensures r.Ok? ==> WellFormed(r.value.vm) && r.value.vm.program == vm.program
    ensures r.Ok? ==> StepEvents(r.value.events)
    ensures r.Ok? && !r.value.suspend ==> r.value.vm.ip == |vm.program| && r.value.vm.wait == vm.wait
    ensures r.Ok? && r.value.suspend ==> SuspendedBy(r.value, vm, time)
    decreases |vm.program| - vm.ip
  {
    if vm.ip == |vm.program| then Ok(Effect(vm, false, []))
    else
      var e :- Step(vm, time, d);
      if e.suspend then Ok(e)
      else
        var rest :- Run(e.vm, time, d);
        PrefixKeepsRun(e.events, rest, vm, e.vm, time);
        Ok(rest.(events := e.events + rest.events))
  }

  /** One call from the host with the current time. While `wait >= time` nothing runs
      and only the remaining wait is logged; otherwise the loop runs, and "Finished"
      is logged exactly when it leaves `ip` at the end of the program. The pending
      wait is never reset. */
  function Process(vm: Vm, time: int, d: Dialect): (r: Result<Tick, Fault>)
    requires WellFormed(vm)
    ensures vm.wait >= time ==> r == Ok(Tick(vm, [Waiting(vm.wait - time)]))
    ensures r.Ok? ==> WellFormed(r.value.vm) && r.value.vm.program == vm.program
    ensures vm.wait < time && r.Ok? ==>
      var t := r.value;
      && (Finished in t.events <==> t.vm.ip == |vm.program|)
      && (forall i :: 0 <= i < |t.events| ==> !t.events[i].Waiting?)
      && (t.vm.ip < |vm.program| ==> |t.events| > 0 && (Last(t.events).Waited? || Last(t.events).Repeated?))
  {
    if vm.wait >= time then Ok(Tick(vm, [Waiting(vm.wait - time)]))
    else
      var e :- Run(vm, time, d);
      var done := if e.vm.ip == |vm.program| then [Finished] else [];
      assert forall i :: 0 <= i < |e.events| ==> e.events[i] != Finished;
      Ok(Tick(e.vm, e.events + done))
  }
}

=== FILE: no_stack_slip.dfy ===
/** PRINT_FLOAT_NO_STACK in the source moves `ip` on by three after the opcode, onto
    its fourth operand byte, which the loop then fetches and dispatches as an opcode.
    Four operand bytes are read, so a move of four was evidently meant. */
module NoStackSlip {
  import opened Wrappers
  import opened Bytes
  import opened Opcodes
  import opened ByteStack
  import opened Machine
  import opened Traces

  /** PRINT_FLOAT_NO_STACK with the operand bytes 0, 0, 0, 0; the last one is also the
      opcode of PRINT_HELLO_WORLD. */
  function SlipProgram(): seq<Byte> {
    [Encode(PrintFloatNoStack), 0, 0, 0, 0]
  }

  /** Running to the end of the program from a state with an empty stack and no
      wait, logging `log`. */
  function Ends(log: seq<Event>): Outcome {
    Outcome(false, |SlipProgram()|, [], NoWait, log)
  }

  lemma AsWrittenFromLastOperand(vm: Vm)
    requires At(vm, SlipProgram(), 4, [])
    ensures RunsTo(vm, AsWritten, Ends([Greeted]))
  {
    var e := Step(vm, 0, AsWritten).value;
    assert e.vm.ip == 5 && e.events == [Greeted] && Contents(e.vm.stack) == [];
    RunAtEnd(e.vm, AsWritten);
    RunContinues(vm, AsWritten, Ends([]));
    assert [Greeted] + [] == [Greeted];
  }

  lemma AsWrittenFromStart(vm: Vm)
    requires At(vm, SlipProgram(), 0, [])
    ensures RunsTo(vm, AsWritten, Ends([PrintedFloat(0), Greeted]))
  {
    var e := Step(vm, 0, AsWritten).value;
    assert e.events == [PrintedFloat(0)] && At(e.vm, SlipProgram(), 4, []);
    AsWrittenFromLastOperand(e.vm);
    RunContinues(vm, AsWritten, Ends([Greeted]));
  }

  lemma IntendedFromStart(vm: Vm)
    requires At(vm, SlipProgram(), 0, [])
    ensures RunsTo(vm, Intended, Ends([PrintedFloat(0)]))
  {
    var e := Step(vm, 0, Intended).value;
    assert e.events == [PrintedFloat(0)] && e.vm.ip == 5 && Contents(e.vm.stack) == [];
    RunAtEnd(e.vm, Intended);
    RunContinues(vm, Intended, Ends([]));
    assert [PrintedFloat(0)] + [] == [PrintedFloat(0)];
  }

  /** As written, the operand byte 0 runs as PRINT_HELLO_WORLD: the log greets
      between the float and "Finished". */
  lemma SlipRunsLastOperand()
    ensures Process(Fresh(SlipProgram()), 0, AsWritten).Ok?
    ensures Process(Fresh(SlipProgram()), 0, AsWritten).value.events == [PrintedFloat(0), Greeted, Finished]
  {
    AsWrittenFromStart(Fresh(SlipProgram()));
  }

  /** As intended, the four operand bytes are only operands. */
  lemma IntendedSkipsOperands()
    ensures Process(Fresh(SlipProgram()), 0, Intended).Ok?
    ensures Process(Fresh(SlipProgram()), 0, Intended).value.events == [PrintedFloat(0), Finished]
  {
    IntendedFromStart(Fresh(SlipProgram()));
  }

  /** On any PRINT_FLOAT_NO_STACK opcode at `vm.ip` both dialects log the same word;
      the source stops on the fourth operand byte and the intended one just past it.
      One more step of the source catches up with the intended state, logging
      nothing, exactly when that operand byte names no instruction. */
  lemma SlipHarmlessIff(vm: Vm, time: int)
    requires WellFormed(vm) && vm.ip + 4 < |vm.program|
    requires vm.program[vm.ip] == Encode(PrintFloatNoStack)
    ensures Step(vm, time, AsWritten).Ok? && Step(vm, time, Intended).Ok?
    ensures var w := Step(vm, time, AsWritten).value;
      var i := Step(vm, time, Intended).value;
      && w.events == i.events
      && w.vm.ip == vm.ip + 4 && i.vm.ip == vm.ip + 5
      && (Step(w.vm, time, AsWritten) == Ok(Effect(i.vm, false, [])) <==> Decode(vm.program[vm.ip + 4]).None?)
  {
    DecodeEncode(PrintFloatNoStack);
    var w := Step(vm, time, AsWritten).value;
    var i := Step(vm, time, Intended).value;
    if Decode(vm.program[vm.ip + 4]).None? {
      assert w.vm.(ip := w.vm.ip + 1) == i.vm;
    }
  }
}

=== FILE: opcodes.dfy ===
/** The instruction set: a byte-backed enumeration numbered from 0 in declaration order. */
module Opcodes {
  import opened Wrappers
  import opened Bytes

  datatype Inst =
    | PrintHelloWorld     // 0
    | Set                 // 1: push the following program byte
    | Add                 // 2: pop b, pop a, push (a + b) mod 256
    | PrintFloat          // 3: pop four bytes and print them as a float
    | PrintFloatNoStack   // 4: print the four following program bytes as a float
    | Wait                // 5: pop an amount and suspend until that much later
    | Repeat              // 6: restart at byte 0 with a zeroed stack

  /** The wire value of an instruction. */
  function Encode(i: Inst): (b: Byte)
    ensures b <= 6
  {
    match i
    case PrintHelloWorld => 0
    case Set => 1
    case Add => 2
    case PrintFloat => 3
    case PrintFloatNoStack => 4
    case Wait => 5
    case Repeat => 6
  }

  /** The instruction a byte names, if any; bytes above 6 name none and the
      dispatch ignores them. */
  function Decode(b: Byte): (r: Option<Inst>)
    ensures r.None? <==> b > 6
  {
    if b == 0 then Some(PrintHelloWorld)
    else if b == 1 then Some(Set)
    else if b == 2 then Some(Add)
    else if b == 3 then Some(PrintFloat)
    else if b == 4 then Some(PrintFloatNoStack)
    else if b == 5 then Some(Wait)
    else if b == 6 then Some(Repeat)
    else None
  }

  /** Decoding undoes encoding: the numbering is a wire contract. */
  lemma DecodeEncode(i: Inst)
    ensures Decode(Encode(i)) == Some(i)
  {
  }

  /** Encoding undoes decoding for every byte that names an instruction. */
  lemma EncodeDecode(b: Byte)
    ensures Decode(b).Some? ==> Encode(Decode(b).value) == b
  {
  }
}

=== FILE: properties.dfy ===
/** Properties of the interpreter that relate several operations or calls. */
module Properties {
  import opened Wrappers
  import opened Bytes
  import opened Faults
  import opened Opcodes
  import opened ByteStack
  import opened Words
  import opened Machine
  import opened Traces

  /** PRINT_FLOAT on a stack whose top four bytes were pushed as b0, b1, b2, b3 and
      PRINT_FLOAT_NO_STACK on inline operands b0, b1, b2, b3 log the same word, the
      big-endian reading of b0..b3, whose little-endian bytes are the pop order
      b3, b2, b1, b0. The first drops the four bytes from the stack; the second
      leaves the stack alone. */
  lemma FloatPathsAgree(s: Vm, q: Vm, d: Dialect, b0: Byte, b1: Byte, b2: Byte, b3: Byte)
    requires WellFormed(s) && WellFormed(q)
    requires s.stack.size >= 4 && Contents(s.stack)[s.stack.size - 4..] == [b0, b1, b2, b3]
    requires q.ip + 4 <= |q.program| && q.program[q.ip..q.ip + 4] == [b0, b1, b2, b3]
    ensures ExecPrintFloat(s).Ok? && ExecPrintFloatNoStack(q, d).Ok?
    ensures ExecPrintFloat(s).value.events == ExecPrintFloatNoStack(q, d).value.events
    ensures ExecPrintFloat(s).value.events == [PrintedFloat(BigEndian([b0, b1, b2, b3]))]
    ensures ToLE(BigEndian([b0, b1, b2, b3]), 4) == [b3, b2, b1, b0]
    ensures Contents(ExecPrintFloat(s).value.vm.stack) == Contents(s.stack)[..s.stack.size - 4]
    ensures ExecPrintFloatNoStack(q, d).value.vm.stack == q.stack
  {
    var c := Contents(s.stack);
    var n := |c|;
    assert c[n - 4] == b0 && c[n - 3] == b1 && c[n - 2] == b2 && c[n - 1] == b3;
    var p := q.program;
    assert p[q.ip] == b0 && p[q.ip + 1] == b1 && p[q.ip + 2] == b2 && p[q.ip + 3] == b3;
    ReversedIsBigEndian(b0, b1, b2, b3);
    ToFromLE([b3, b2, b1, b0]);
    FromLECons(b0, []);
    FromLECons(b1, [b0]);
    FromLECons(b2, [b1, b0]);
    FromLECons(b3, [b2, b1, b0]);
    assert [b3] + ([b2] + ([b1] + ([b0] + []))) == [b3, b2, b1, b0];
  }

  /** After a run that suspended on WAIT with amount `a` at time `time`, `ip` stands
      just past the WAIT opcode, and a later call is refused, with nothing run and only
      the remaining wait logged, exactly when its time is at most `time + a`: execution
      resumes there only at a strictly later time. */
  lemma WaitHoldsUntilStrictlyLater(vm: Vm, time: int, d: Dialect, later: int)
    requires WellFormed(vm)
    requires Run(vm, time, d).Ok? && Run(vm, time, d).value.suspend
    requires Last(Run(vm, time, d).value.events).Waited?
    ensures var e := Run(vm, time, d).value;
      var a := Last(e.events).amount;
      && e.vm.wait == time + a
      && 0 < e.vm.ip <= |e.vm.program| && e.vm.program[e.vm.ip - 1] == Encode(Wait)
      && (Process(e.vm, later, d) == Ok(Tick(e.vm, [Waiting(time + a - later)])) <==> later <= time + a)
  {
    var e := Run(vm, time, d).value;
    var a := Last(e.events).amount;
    if later > time + a {
      var r := Process(e.vm, later, d);
      if r.Ok? && |r.value.events| > 0 {
        assert !r.value.events[0].Waiting?;
      }
    }
  }

  /** Loading a new program keeps the pending wait: a call right after `Load` is
      refused exactly when it would have been refused before. The stack count is kept
      as well, so the reloaded stack holds that many zero bytes. */
  lemma ReloadKeepsWait(vm: Vm, program: seq<Byte>, time: int, d: Dialect)
    requires WellFormed(vm)
    ensures var loaded := Load(vm, program);
      && Contents(loaded.stack) == Zeros(vm.stack.size)
      && (Process(loaded, time, d) == Ok(Tick(loaded, [Waiting(vm.wait - time)])) <==> vm.wait >= time)
  {
    var loaded := Load(vm, program);
    var r := Process(loaded, time, d);
    if vm.wait < time && r.Ok? && |r.value.events| > 0 {
      assert !r.value.events[0].Waiting?;
    }
  }

  /** The "no wait" value -1 only holds off calls at negative times. */
  lemma SentinelBlocksOnlyNegativeTimes(program: seq<Byte>, time: int, d: Dialect)
    ensures Process(Fresh(program), time, d) == Ok(Tick(Fresh(program), [Waiting(-1 - time)])) <==> time < 0
  {
    var r := Process(Fresh(program), time, d);
    if time >= 0 && r.Ok? && |r.value.events| > 0 {
      assert !r.value.events[0].Waiting?;
    }
  }

  /** A program of one SET per byte of `bs`. */
  function SetProgram(bs: seq<Byte>): (p: seq<Byte>)
    ensures |p| == 2 * |bs|
  {
    seq(2 * |bs|, i requires 0 <= i < 2 * |bs| => if i % 2 == 0 then Encode(Set) else bs[i / 2])
  }

  /** Running the SETs from the `k`-th on, with the first `k` bytes already pushed,
      fills the stack with `bs` when it fits in 128 slots and overflows otherwise. */
  lemma {:induction false} RunSets(vm: Vm, bs: seq<Byte>, k: nat, time: int, d: Dialect)
    requires WellFormed(vm) && vm.program == SetProgram(bs)
    requires k <= |bs| && vm.ip == 2 * k && Contents(vm.stack) == bs[..k]
    ensures |bs| <= Capacity ==> Run(vm, time, d).Ok? && Contents(Run(vm, time, d).value.vm.stack) == bs
    ensures |bs| > Capacity ==> Run(vm, time, d) == Err(StackOverflow)
    decreases |bs| - k
  {
    if k < |bs| {
      assert vm.program[2 * k] == Encode(Set) && vm.program[2 * k + 1] == bs[k];
      var r := Step(vm, time, d);
      if k < Capacity {
        assert bs[..k] + [bs[k]] == bs[..k + 1];
        RunSets(r.value.vm, bs, k + 1, time, d);
      }
    } else {
      assert bs[..k] == bs;
    }
  }

  /** SET can push up to 128 bytes; the 129th overflows. */
  lemma SetsFillStack(bs: seq<Byte>, time: int, d: Dialect)
    ensures Run(Fresh(SetProgram(bs)), time, d).Ok? <==> |bs| <= Capacity
    ensures |bs| <= Capacity ==> Contents(Run(Fresh(SetProgram(bs)), time, d).value.vm.stack) == bs
    ensures |bs| > Capacity ==> Run(Fresh(SetProgram(bs)), time, d) == Err(StackOverflow)
  {
    RunSets(Fresh(SetProgram(bs)), bs, 0, time, d);
  }

  /** SET 255, SET 1, ADD. */
  function WrapProgram(): seq<Byte> {
    [Encode(Set), 255, Encode(Set), 1, Encode(Add)]
  }

  /** Running WrapProgram to its end with `contents` on the stack, logging `log`. */
  function WrapEnds(contents: seq<Byte>, log: seq<Event>): Outcome {
    Outcome(false, |WrapProgram()|, contents, NoWait, log)
  }

  lemma WrapFromAdd(vm: Vm, d: Dialect)
    requires At(vm, WrapProgram(), 4, [255, 1])
    ensures RunsTo(vm, d, WrapEnds([0], [Summed(255, 1, 0)]))
  {
    var e := Step(vm, 0, d).value;
    assert e.vm.ip == 5 && Contents(e.vm.stack) == [0] && e.events == [Summed(255, 1, 0)];
    RunAtEnd(e.vm, d);
    RunContinues(vm, d, WrapEnds([0], []));
    assert e.events + [] == e.events;
  }

  lemma WrapFromSetOne(vm: Vm, d: Dialect)
    requires At(vm, WrapProgram(), 2, [255])
    ensures RunsTo(vm, d, WrapEnds([0], [Pushed(1), Summed(255, 1, 0)]))
  {
    var e := Step(vm, 0, d).value;
    assert e.events == [Pushed(1)] && At(e.vm, WrapProgram(), 4, [255, 1]);
    WrapFromAdd(e.vm, d);
    RunContinues(vm, d, WrapEnds([0], [Summed(255, 1, 0)]));
  }

  lemma WrapFromStart(vm: Vm, d: Dialect)
    requires At(vm, WrapProgram(), 0, [])
    ensures RunsTo(vm, d, WrapEnds([0], [Pushed(255), Pushed(1), Summed(255, 1, 0)]))
  {
    var e := Step(vm, 0, d).value;
    assert e.events == [Pushed(255)] && At(e.vm, WrapProgram(), 2, [255]);
    WrapFromSetOne(e.vm, d);
    RunContinues(vm, d, WrapEnds([0], [Pushed(1), Summed(255, 1, 0)]));
  }

  /** ADD wraps: 255 + 1 leaves 0 on the stack. */
  lemma AddWrapsAround(d: Dialect)
    ensures Process(Fresh(WrapProgram()), 0, d).Ok?
    ensures var t := Process(Fresh(WrapProgram()), 0, d).value;
      && Contents(t.vm.stack) == [0]
      && t.events == [Pushed(255), Pushed(1), Summed(255, 1, 0), Finished]
  {
    WrapFromStart(Fresh(WrapProgram()), d);
  }

  /** SET 2, WAIT: the WAIT is the last byte. */
  function WaitLastProgram(): seq<Byte> {
    [Encode(Set), 2, Encode(Wait)]
  }

  lemma WaitLastFromWait(vm: Vm, d: Dialect)
    requires At(vm, WaitLastProgram(), 2, [2])
    ensures RunsTo(vm, d, Outcome(true, 3, [], 2, [Waited(2)]))
  {
    var e := Step(vm, 0, d).value;
    assert e.suspend && e.vm.ip == 3 && Contents(e.vm.stack) == [] && e.events == [Waited(2)];
  }

  lemma WaitLastFromStart(vm: Vm, d: Dialect)
    requires At(vm, WaitLastProgram(), 0, [])
    ensures RunsTo(vm, d, Outcome(true, 3, [], 2, [Pushed(2), Waited(2)]))
  {
    var e := Step(vm, 0, d).value;
    assert !e.suspend && e.events == [Pushed(2)] && At(e.vm, WaitLastProgram(), 2, [2]);
    WaitLastFromWait(e.vm, d);
    RunContinues(vm, d, Outcome(true, 3, [], 2, [Waited(2)]));
  }

  /** "Finished" depends only on where `ip` stands after the loop: a WAIT that is the
      last byte both suspends and finishes. */
  lemma WaitAtEndAlsoFinishes(d: Dialect)
    ensures Process(Fresh(WaitLastProgram()), 0, d).Ok?
    ensures Process(Fresh(WaitLastProgram()), 0, d).value.events == [Pushed(2), Waited(2), Finished]
  {
    WaitLastFromStart(Fresh(WaitLastProgram()), d);
  }
}

=== FILE: sample.dfy ===
/** The 22-byte program the host loads, and what the first calls do with it. */
module SampleProgram {
  import opened Wrappers
  import opened Bytes
  import opened Opcodes
  import opened ByteStack
  import opened Machine
  import opened Traces

  /** Hello; 2 + 1; the word 0x4996b438 printed from the stack and then from inline
      bytes; wait for the sum; repeat. */
  function Sample(): (p: seq<Byte>)
    ensures |p| == 22
  {
    [ Encode(PrintHelloWorld),
      Encode(Set), 2, Encode(Set), 1, Encode(Add),
      Encode(Set), 0x49, Encode(Set), 0x96, Encode(Set), 0xb4, Encode(Set), 0x38, Encode(PrintFloat),
      Encode(PrintFloatNoStack), 0x49, 0x96, 0xb4, 0x38,
      Encode(Wait),
      Encode(Repeat) ]
  }

  /** The same program as the numbers on the wire: `INST` is numbered from 0 in
      declaration order, so SET is 1 and REPEAT is 6. */
  lemma SampleWireBytes()
    ensures Sample() == [0, 1, 2, 1, 1, 2, 1, 0x49, 1, 0x96, 1, 0xb4, 1, 0x38, 3, 4, 0x49, 0x96, 0xb4, 0x38, 5, 6]
  {
  }

  /** The log of the first call. */
  function FirstLog(): seq<Event> {
    [ Greeted, Pushed(2), Pushed(1), Summed(2, 1, 3),
      Pushed(0x49), Pushed(0x96), Pushed(0xb4), Pushed(0x38),
      PrintedFloat(0x4996b438), PrintedFloat(0x4996b438), Waited(3) ]
  }

  /** Suspending with `ip` at the REPEAT opcode, an empty stack and wait time 3,
      having logged `log`. */
  function AtRepeat(log: seq<Event>): Outcome {
    Outcome(true, 21, [], 3, log)
  }

  /** A step that logs exactly entry `k` of the first call's log and does not suspend,
      followed by a run that logs the entries after `k`, logs the entries from `k` on. */
  lemma Continue(vm: Vm, d: Dialect, k: nat)
    requires WellFormed(vm) && vm.ip < |vm.program| && k < |FirstLog()|
    requires Step(vm, 0, d).Ok? && !Step(vm, 0, d).value.suspend
    requires Step(vm, 0, d).value.events == [FirstLog()[k]]
    requires RunsTo(Step(vm, 0, d).value.vm, d, AtRepeat(FirstLog()[k + 1..]))
    ensures RunsTo(vm, d, AtRepeat(FirstLog()[k..]))
  {
    assert FirstLog()[k..] == [FirstLog()[k]] + FirstLog()[k + 1..];
    RunContinues(vm, d, AtRepeat(FirstLog()[k + 1..]));
  }

  // One lemma per program point of the first call, from the WAIT back to byte 0:
  // each takes one step, names the next point, and hands the rest to `Continue`.

  /** WAIT pops the sum 3 and suspends with wait time 3. */
  lemma FromWait(vm: Vm, d: Dialect)
    requires At(vm, Sample(), 20, [3])
    ensures RunsTo(vm, d, AtRepeat([Waited(3)]))
  {
    var e := Step(vm, 0, d).value;
    assert e.vm.ip == 21 && e.vm.wait == 3 && e.events == [Waited(3)];
  }

  /** The last operand byte of PRINT_FLOAT_NO_STACK, 0x38, names no instruction. */
  lemma FromStrayOperand(vm: Vm, d: Dialect)
    requires At(vm, Sample(), 19, [3])
    ensures RunsTo(vm, d, AtRepeat([Waited(3)]))
  {
    var e := Step(vm, 0, d).value;
    assert e.events == [] && At(e.vm, Sample(), 20, [3]);
    FromWait(e.vm, d);
    RunContinues(vm, d, AtRepeat([Waited(3)]));
  }

  /** PRINT_FLOAT_NO_STACK prints the word 0x4996b438 from the inline bytes. */
  lemma FromPrintFloatNoStack(vm: Vm, d: Dialect)
    requires At(vm, Sample(), 15, [3])
    ensures RunsTo(vm, d, AtRepeat(FirstLog()[9..]))
  {
    var e := Step(vm, 0, d).value;
    assert e.events == [PrintedFloat(0x4996b438)];
    if d == AsWritten {
      assert At(e.vm, Sample(), 19, [3]);
      FromStrayOperand(e.vm, d);
    } else {
      assert At(e.vm, Sample(), 20, [3]);
      FromWait(e.vm, d);
    }
    RunContinues(vm, d, AtRepeat([Waited(3)]));
  }

  /** PRINT_FLOAT. */
  lemma FromPrintFloat(vm: Vm, d: Dialect)
    requires At(vm, Sample(), 14, [3, 0x49, 0x96, 0xb4, 0x38])
    ensures RunsTo(vm, d, AtRepeat(FirstLog()[8..]))
  {
    var e := Step(vm, 0, d).value;
    assert e.events == [FirstLog()[8]] && At(e.vm, Sample(), 15, [3]);
    FromPrintFloatNoStack(e.vm, d);
    Continue(vm, d, 8);
  }

  /** SET 0x38. */
  lemma FromSet38(vm: Vm, d: Dialect)
    requires At(vm, Sample(), 12, [3, 0x49, 0x96, 0xb4])
    ensures RunsTo(vm, d, AtRepeat(FirstLog()[7..]))
  {
    var e := Step(vm, 0, d).value;
    assert Contents(e.vm.stack) == [3, 0x49, 0x96, 0xb4] + [0x38];
    assert e.events == [FirstLog()[7]] && At(e.vm, Sample(), 14, [3, 0x49, 0x96, 0xb4, 0x38]);
    FromPrintFloat(e.vm, d);
    Continue(vm, d, 7);
  }

  /** SET 0xb4. */
  lemma FromSetB4(vm: Vm, d: Dialect)
    requires At(vm, Sample(), 10, [3, 0x49, 0x96])
    ensures RunsTo(vm, d, AtRepeat(FirstLog()[6..]))
  {
    var e := Step(vm, 0, d).value;
    assert e.events == [FirstLog()[6]] && At(e.vm, Sample(), 12, [3, 0x49, 0x96, 0xb4]);
    FromSet38(e.vm, d);
    Continue(vm, d, 6);
  }

  /** SET 0x96. */
  lemma FromSet96(vm: Vm, d: Dialect)
    requires At(vm, Sample(), 8, [3, 0x49])
    ensures RunsTo(vm, d, AtRepeat(FirstLog()[5..]))
  {
    var e := Step(vm, 0, d).value;
    assert e.events == [FirstLog()[5]] && At(e.vm, Sample(), 10, [3, 0x49, 0x96]);
    FromSetB4(e.vm, d);
    Continue(vm, d, 5);
  }

  /** SET 0x49. */
  lemma FromSet49(vm: Vm, d: Dialect)
    requires At(vm, Sample(), 6, [3])
    ensures RunsTo(vm, d, AtRepeat(FirstLog()[4..]))
  {
    var e := Step(vm, 0, d).value;
    assert e.events == [FirstLog()[4]] && At(e.vm, Sample(), 8, [3, 0x49]);
    FromSet96(e.vm, d);
    Continue(vm, d, 4);
  }

  /** ADD. */
  lemma FromAdd(vm: Vm, d: Dialect)
    requires At(vm, Sample(), 5, [2, 1])
    ensures RunsTo(vm, d, AtRepeat(FirstLog()[3..]))
  {
    var e := Step(vm, 0, d).value;
    assert e.events == [FirstLog()[3]] && At(e.vm, Sample(), 6, [3]);
    FromSet49(e.vm, d);
    Continue(vm, d, 3);
  }

  /** SET 1. */
  lemma FromSetOne(vm: Vm, d: Dialect)
    requires At(vm, Sample(), 3, [2])
    ensures RunsTo(vm, d, AtRepeat(FirstLog()[2..]))
  {
    var e := Step(vm, 0, d).value;
    assert e.events == [FirstLog()[2]] && At(e.vm, Sample(), 5, [2, 1]);
    FromAdd(e.vm, d);
    Continue(vm, d, 2);
  }

  /** SET 2. */
  lemma FromSetTwo(vm: Vm, d: Dialect)
    requires At(vm, Sample(), 1, [])
    ensures RunsTo(vm, d, AtRepeat(FirstLog()[1..]))
  {
    var e := Step(vm, 0, d).value;
    assert e.events == [FirstLog()[1]] && At(e.vm, Sample(), 3, [2]);
    FromSetOne(e.vm, d);
    Continue(vm, d, 1);
  }

  /** PRINT_HELLO_WORLD. */
  lemma FromHello(vm: Vm, d: Dialect)
    requires At(vm, Sample(), 0, [])
    ensures RunsTo(vm, d, AtRepeat(FirstLog()[0..]))
  {
    var e := Step(vm, 0, d).value;
    assert e.events == [FirstLog()[0]] && At(e.vm, Sample(), 1, []);
    FromSetTwo(e.vm, d);
    Continue(vm, d, 0);
  }

  /** The first call at time 0 greets, adds 2 and 1, prints the word 0x4996b438 twice,
      pops the sum 3 as the wait amount and suspends before the REPEAT opcode, without
      logging "Finished". Under the source's PRINT_FLOAT_NO_STACK the last operand byte
      0x38 is fetched as an opcode on the way and does nothing; the intended dialect
      skips it, with the same outcome. */
  lemma FirstTick(d: Dialect)
    ensures Process(Fresh(Sample()), 0, d).Ok?
    ensures var t := Process(Fresh(Sample()), 0, d).value;
      && t.vm.ip == 21 && t.vm.stack.size == 0 && t.vm.wait == 3
      && t.events == FirstLog()
  {
    FromHello(Fresh(Sample()), d);
  }

  /** A call at a time not past the wait time 3 changes nothing. */
  lemma IdleFrom(vm: Vm, time: int, d: Dialect)
    requires WellFormed(vm) && vm.program == Sample()
    requires vm.ip == 21 && vm.stack.size == 0 && vm.wait == 3 && time <= 3
    ensures Process(vm, time, d) == Ok(Tick(vm, [Waiting(3 - time)]))
  {
  }

  /** Any later call at a time up to 3 runs nothing and only logs the remaining wait. */
  lemma WaitingTick(d: Dialect, time: int)
    requires time <= 3
    ensures Process(Fresh(Sample()), 0, d).Ok?
    ensures var vm := Process(Fresh(Sample()), 0, d).value.vm;
      Process(vm, time, d) == Ok(Tick(vm, [Waiting(3 - time)]))
  {
    FirstTick(d);
    IdleFrom(Process(Fresh(Sample()), 0, d).value.vm, time, d);
  }

  /** REPEAT from the state the first call leaves. */
  lemma RepeatFrom(vm: Vm, time: int, d: Dialect)
    requires WellFormed(vm) && vm.program == Sample()
    requires vm.ip == 21 && vm.stack.size == 0 && vm.wait == 3 && time > 3
    ensures Process(vm, time, d).Ok?
    ensures var t := Process(vm, time, d).value;
      && t.vm.ip == 0 && Contents(t.vm.stack) == [] && t.vm.wait == 3
      && t.events == [Repeated]
  {
    var e := Step(vm, time, d).value;
    assert e.suspend && e.events == [Repeated] && e.vm.ip == 0;
    assert Run(vm, time, d) == Ok(e);
  }

  /** The first call at a time after 3 runs the REPEAT opcode: back to byte 0 with a
      zeroed, empty stack, and suspends again. The wait time stays 3. */
  lemma RepeatTick(d: Dialect, time: int)
    requires time > 3
    ensures Process(Fresh(Sample()), 0, d).Ok?
    ensures var vm := Process(Fresh(Sample()), 0, d).value.vm;
      && Process(vm, time, d).Ok?
      && var t := Process(vm, time, d).value;
      && t.vm.ip == 0 && Contents(t.vm.stack) == [] && t.vm.wait == 3
      && t.events == [Repeated]
  {
    FirstTick(d);
    RepeatFrom(Process(Fresh(Sample()), 0, d).value.vm, time, d);
  }
}

=== FILE: stack.dfy ===
/** The interpreter's stack: a fixed array of 128 byte slots and a separate count of
    occupied slots. Popping only lowers the count, so a popped byte stays in its slot
    until it is overwritten or cleared. */
module ByteStack {
  import opened Wrappers
  import opened Faults
  import opened Bytes

  /** Number of slots. */
  const Capacity: nat := 128

  datatype Stack = Stack(slots: seq<Byte>, size: nat)

  /** Result of a successful pop: the byte and the stack without it. */
  datatype Popped = Popped(value: Byte, rest: Stack)

  predicate Valid(s: Stack) {
    |s.slots| == Capacity && s.size <= Capacity
  }

  /** The occupied slots, bottom first: the stack as a list. */
  function Contents(s: Stack): seq<Byte>
    requires Valid(s)
  {
    s.slots[..s.size]
  }

  /** `n` zero bytes. */
  function Zeros(n: nat): (z: seq<Byte>)
    ensures |z| == n
    ensures forall i :: 0 <= i < n ==> z[i] == 0
  {
    seq(n, _ => 0)
  }

  /** A freshly allocated slot array with the given count of occupied slots. */
  function Cleared(size: nat): (s: Stack)
    requires size <= Capacity
    ensures Valid(s) && s.size == size
    ensures Contents(s) == Zeros(size)
  {
    Stack(Zeros(Capacity), size)
  }

  /** Writes `v` into the first free slot; overflows when all 128 are taken. */
  function Push(s: Stack, v: Byte): (r: Result<Stack, Fault>)
    requires Valid(s)
    ensures r.Ok? <==> s.size < Capacity
    ensures r.Err? ==> r.error == StackOverflow
    ensures r.Ok? ==> Valid(r.value) && Contents(r.value) == Contents(s) + [v]
    ensures r.Ok? ==> forall i :: 0 <= i < Capacity && i != s.size ==> r.value.slots[i] == s.slots[i]
  {
    if s.size < Capacity then
      var t := Stack(s.slots[s.size := v], s.size + 1);
      assert Contents(t) == Contents(s) + [v];
      Ok(t)
    else
      Err(StackOverflow)
  }

  /** Reads the top occupied slot and releases it; underflows on an empty stack. */
  function Pop(s: Stack): (r: Result<Popped, Fault>)
    requires Valid(s)
    ensures r.Ok? <==> s.size > 0
    ensures r.Err? ==> r.error == StackUnderflow
    ensures r.Ok? ==> Valid(r.value.rest) && Contents(s) == Contents(r.value.rest) + [r.value.value]
    ensures r.Ok? ==> r.value.rest.slots == s.slots
  {
    if s.size > 0 then
      var t := Stack(s.slots, s.size - 1);
      assert Contents(s) == Contents(t) + [s.slots[s.size - 1]];
      Ok(Popped(s.slots[s.size - 1], t))
    else
      Err(StackUnderflow)
  }

  /** Zeroes every slot, occupied or not, and leaves the count alone. */
  function Clear(s: Stack): (r: Stack)
    requires Valid(s)
    ensures Valid(r) && r.size == s.size
    ensures forall i :: 0 <= i < Capacity ==> r.slots[i] == 0
  {
    Cleared(s.size)
  }

  /** Popping right after a push gives back the pushed byte and the old size and
      contents; only the free slot just above the contents keeps the byte. */
  lemma PushThenPop(s: Stack, v: Byte)
    requires Valid(s) && s.size < Capacity
    ensures Push(s, v).Ok?
    ensures Pop(Push(s, v).value) == Ok(Popped(v, Stack(s.slots[s.size := v], s.size)))
    ensures Contents(Pop(Push(s, v).value).value.rest) == Contents(s)
  {
  }

  /** Pushing the byte just popped restores the stack exactly. */
  lemma PopThenPush(s: Stack)
    requires Valid(s) && s.size > 0
    ensures Pop(s).Ok?
    ensures Push(Pop(s).value.rest, Pop(s).value.value) == Ok(s)
  {
    var p := Pop(s).value;
    assert p.rest.slots[p.rest.size := p.value] == s.slots;
  }
}

=== FILE: traces.dfy ===
/** The vocabulary of the concrete-program lemmas: where a run stands, and where a
    run from there ends. */
module Traces {
  import opened Wrappers
  import opened Bytes
  import opened ByteStack
  import opened Machine

  /** The state before the byte at `ip` of `program`, with the given stack contents
      and no pending wait. */
  predicate At(vm: Vm, program: seq<Byte>, ip: nat, contents: seq<Byte>) {
    && WellFormed(vm) && vm.program == program && vm.ip == ip
    && Contents(vm.stack) == contents && vm.wait == NoWait
  }

  /** How a run ends: whether an instruction suspended it, the instruction pointer,
      the stack contents and wait time it leaves, and what it logged. */
  datatype Outcome = Outcome(suspend: bool, ip: nat, contents: seq<Byte>, wait: int, log: seq<Event>)

  /** Running from `vm` at time 0 succeeds and ends as `o` says. */
  predicate RunsTo(vm: Vm, d: Dialect, o: Outcome)
    requires WellFormed(vm)
  {
    var r := Run(vm, 0, d);
    && r.Ok? && r.value.suspend == o.suspend
    && r.value.vm.ip == o.ip && Contents(r.value.vm.stack) == o.contents
    && r.value.vm.wait == o.wait && r.value.events == o.log
  }

  /** A step that does not suspend prepends its log to the rest of the run. */
  lemma RunContinues(vm: Vm, d: Dialect, o: Outcome)
    requires WellFormed(vm) && vm.ip < |vm.program|
    requires Step(vm, 0, d).Ok? && !Step(vm, 0, d).value.suspend
    requires RunsTo(Step(vm, 0, d).value.vm, d, o)
    ensures RunsTo(vm, d, o.(log := Step(vm, 0, d).value.events + o.log))
  {
  }

  /** At the end of the program the loop runs nothing. */
  lemma RunAtEnd(vm: Vm, d: Dialect)
    requires WellFormed(vm) && vm.ip == |vm.program|
    ensures RunsTo(vm, d, Outcome(false, vm.ip, Contents(vm.stack), vm.wait, []))
  {
  }
}

=== FILE: words.dfy ===
/** Assembly of the 32-bit word that the C# original hands to `BitConverter.ToSingle`.
    That call reads its byte array in the host's byte order; the model takes a
    little-endian host, where element 0 is the least significant byte. The model stops
    at the word and does not decode the IEEE-754 value. */
module Words {
  import opened Bytes

  function Pow256(n: nat): (p: nat)
    ensures p >= 1
  {
    if n == 0 then 1 else 256 * Pow256(n - 1)
  }

  /** The number whose little-endian encoding is `bs`. */
  function FromLE(bs: seq<Byte>): (w: nat)
    ensures w < Pow256(|bs|)
  {
    if |bs| == 0 then 0
    else
      var rest := FromLE(bs[1..]);
      assert rest <= Pow256(|bs| - 1) - 1;
      bs[0] + 256 * rest
  }

  /** The `n`-byte little-endian encoding of `w`, keeping the low `n` bytes. */
  function ToLE(w: nat, n: nat): (bs: seq<Byte>)
    ensures |bs| == n
  {
    if n == 0 then [] else [w % 256] + ToLE(w / 256, n - 1)
  }

  /** Prepending a byte adds it as the new least significant digit. */
  lemma FromLECons(b: Byte, rest: seq<Byte>)
    ensures FromLE([b] + rest) == b + 256 * FromLE(rest)
  {
    assert ([b] + rest)[1..] == rest;
  }

  /** Quotient bound for one base-256 digit: dropping the low byte of a value below
      `256 * p` leaves a value below `p`. */
  lemma DivBound(w: nat, p: nat)
    requires w < 256 * p
    ensures w / 256 < p
  {
  }

  /** Encoding then decoding gives back every value that fits in `n` bytes. */
  lemma {:induction false} FromToLE(w: nat, n: nat)
    requires w < Pow256(n)
    ensures FromLE(ToLE(w, n)) == w
  {
    if n > 0 {
      DivBound(w, Pow256(n - 1));
      FromToLE(w / 256, n - 1);
      FromLECons(w % 256, ToLE(w / 256, n - 1));
    }
  }

  /** Decoding then encoding at the same width gives back the bytes. */
  lemma {:induction false} ToFromLE(bs: seq<Byte>)
    ensures ToLE(FromLE(bs), |bs|) == bs
  {
    if |bs| > 0 {
      var w := FromLE(bs);
      var rest := FromLE(bs[1..]);
      assert w == bs[0] + 256 * rest;
      assert w % 256 == bs[0] && w / 256 == rest;
      ToFromLE(bs[1..]);
      assert bs == [bs[0]] + bs[1..];
    }
  }

  /** A 32-bit word. */
  type Word = w: nat | w < 0x1_0000_0000

  /** The word `BitConverter.ToSingle` reads from a four-byte array. */
  function WordOf(b0: Byte, b1: Byte, b2: Byte, b3: Byte): (w: Word)
    ensures w == b0 + 0x100 * b1 + 0x1_0000 * b2 + 0x100_0000 * b3
  {
    FromLECons(b3, []);
    FromLECons(b2, [b3]);
    FromLECons(b1, [b2, b3]);
    FromLECons(b0, [b1, b2, b3]);
    assert [b0] + ([b1] + ([b2] + ([b3] + []))) == [b0, b1, b2, b3];
    FromLE([b0, b1, b2, b3])
  }

  /** The big-endian reading of four bytes, first byte most significant. */
  function BigEndian(bs: seq<Byte>): Word
    requires |bs| == 4
  {
    // `as nat`: without it each product would be typed `Byte` and overflow it
    0x100_0000 * bs[0] as nat + 0x1_0000 * bs[1] as nat + 0x100 * bs[2] as nat + bs[3]
  }

  /** `BitConverter.ToSingle` on four bytes in reverse order reads them big-endian. */
  lemma ReversedIsBigEndian(b0: Byte, b1: Byte, b2: Byte, b3: Byte)
    ensures WordOf(b3, b2, b1, b0) == BigEndian([b0, b1, b2, b3])
  {
  }
}

=== FILE: wrappers.dfy ===
/** Failure-compatible result and option types used by the interpreter model. */
module Wrappers {

  /** An optional value: `None` when nothing is present. */
  datatype Option<+T> = None | Some(value: T)

  /** Either a value or the error that prevented computing it; usable with `:-`. */
  datatype Result<+R, +E> = Ok(value: R) | Err(error: E) {

    predicate IsFailure() {
      Err?
    }

    function PropagateFailure<U>(): Result<U, E>
      requires Err?
    {
      Err(error)
    }

    function Extract(): R
      requires Ok?
    {
      value
    }
  }
}
